=== FILE: README.md ===
# Service desk API: a verified model of its write rules and listing order

The system is a small REST API for a service desk. It has three tables: sectors (`setor`),
users (`usuario`, each in one sector) and tickets (`chamados`, each opened by a user for a
sector). This project models the logic of its endpoints in Dafny. Those endpoints are
`criar_setor`, `criar_usuario`, `criar_chamado`, `atualizar_chamado`, `deletar_chamado` and the
three listings. Each endpoint is a pure function. It takes the store and the already-parsed
request and returns the HTTP status, the response payload and the new store.

- `Wrappers`, `Json`: the request body is `Option<map<string, Value>>`. `None` is `request.json`
  evaluating to None: a `null` body. Flask answers a request with no JSON body with 400 or 415
  before the endpoint runs; that is left out with the parsing. `Truthy` is Python's truthiness, so `""`, `0`, `False`, `None` and empty
  containers are falsy.
- `Text`: Python's `str.strip()` and `str.lower()`, and `Normalise` = `strip().lower()`.
- `Schema`: the three tables as maps keyed by their AUTO_INCREMENT ids, plus the id counters.
  It also holds the constants `STATUS_VALIDOS` and `PRIORIDADES_VALIDAS`, the column ENUMs, and
  the store invariant `Valid`. `Valid` covers references that resolve, unique emails, and stored
  status/priority values that passed the validator. Finally, it says how a JSON value becomes a
  query parameter (`ProbeRow` for `setor_existe`/`usuario_existe`/`chamado_existe`, `TextOf`
  for text columns).
- `Writes`: the five write endpoints. `Invariants`: each of them keeps the store invariant.
  `WriteLaws`: properties that relate calls to each other.
- `Sorting`: an insertion sort proved to produce a sorted permutation, and a proof that a sorted
  permutation is unique when the order has no ties.
- `Queries`: the joined rows of each listing and the `ORDER BY` of each listing.
  `QueryLaws`: what the listings show after writes, and the worked ordering example.

Errors are a `Failure` kind, and `Code` maps each kind to its HTTP status. Two kinds of failure
both give status 500:

- `DatabaseError`: a driver error that the endpoint catches.
- `Unhandled`: an exception that escapes the endpoint. Flask answers those with 500.

`criar_chamado` reaches `Unhandled` in three ways:

- It has no guard against a `null` body, so `campo not in dados` raises on `None`.
- It calls `.strip()` on a priority that is not a string.
- A `usuario_id` or `setor_id` sent as a JSON array or object cannot be bound as a query
  parameter, so `usuario_existe` or `setor_existe` raises outside their `try` blocks
  (app.py:99-121). `criar_usuario` reaches `Unhandled` the same way through `setor_id`.

In `criar_usuario`, a NULL name or email breaks a NOT NULL constraint. That surfaces as the
same `IntegrityError` as a duplicate email, so both give 409.

In these places the model follows the code, which may differ from what one expects:

- `criar_setor` checks only that `nome` is present. An empty name is stored.
- Ticket creation accepts `critica`, because it is in `PRIORIDADES_VALIDAS`. The English word
  "critical" is rejected.
- Update accepts `cancelado`, although the column ENUMs lack both `critica` and `cancelado`.
- The rank `CASE` has no `ELSE`, so an unranked priority ranks as NULL. NULL sorts FIRST in
  MySQL's ascending order, not last.
- An update body whose only field is `""` is refused as an invalid status or priority. It is
  not refused for having nothing to update.
- The connection is opened without the `FOUND_ROWS` client flag (app.py:17-23), so `rowcount`
  counts the rows an UPDATE changed, not those it matched. An update that writes the values
  the ticket already holds therefore answers 404 "not found" (app.py:453-454), and so does
  every repetition of an accepted update.

## Model

| member | source | states |
|---|---|---|
| Json.Truthy | app.py:309 | Python's truthiness of a JSON value; its partner `TruthyIffNotFalsy` proves it false on exactly the five falsy values |
| Json.TruthyIffNotFalsy | app.py:308-310 | a body value counts as supplied exactly when it is none of the five falsy JSON values |
| Text.TrimStart | app.py:312 | the leading-whitespace cut of `strip()`: the longest suffix not starting with whitespace; everything dropped is whitespace |
| Text.TrimEnd | app.py:312 | the trailing-whitespace cut of `strip()`: the longest prefix not ending with whitespace; everything dropped is whitespace |
| Text.Strip | app.py:312 | `strip()` yields the slice of its input that starts after the leading whitespace, has no whitespace at either end, and is followed only by whitespace |
| Text.StripTrimsBothEnds | app.py:312 | `strip()` equals cutting the leading whitespace and then the trailing whitespace |
| Text.Lower | app.py:312 | `lower()` keeps the length, turns each upper-case ASCII letter into its lower-case letter (code + 32), keeps every other character, and leaves no upper-case letter |
| Text.Normalise | app.py:312 | `strip().lower()` is never longer than its input and has no upper-case letter |
| Text.NormaliseFixesClean | app.py:432-435 | `strip().lower()` leaves a trimmed lower-case string unchanged |
| Text.NormaliseIsClean | app.py:312 | `strip().lower()` always yields a trimmed lower-case string |
| Text.NormaliseIdempotent | app.py:312 | normalising twice is the same as normalising once |
| Text.NormaliseExample | app.py:312 | `" Alta "` normalises to `"alta"` |
| Schema.EmptyStoreValid | app.py:50-85 | freshly created, empty tables satisfy the store invariant |
| Schema.ProbeRow | app.py:99-133 | an existence helper finds a row exactly when the value binds to an id that is a key of the table; it raises exactly for an array or object value |
| Writes.CreateSector | app.py:173-202 | 400 exactly when the body is `null`, empty or lacks `nome`; 201 exactly when `nome` is present and binds as text; on 201, the store is the old one with exactly one sector added under the next id with the sent name and the sector counter advanced; every failure leaves the store unchanged |
| Writes.CreateUser | app.py:225-268 | 400 exactly when a field is missing; 404 exactly when the sector does not exist; 409 exactly when the sector exists, neither name nor email is an array or object, and the name or email is NULL or the email is registered; 201 exactly when all fields are present, the sector exists, name and email bind as text and the email is free; on 201, the store is the old one with just that user added under the next id, with its sector and an email no other user has, and the user counter advanced; failures write nothing |
| Writes.InsertUser | app.py:245-261 | the insert succeeds exactly when name and email bind as text and the email is free, and answers 409 exactly when neither fails to bind and one is NULL or the email is taken; on success it adds just that user under the next id |
| Writes.FirstMissing | app.py:306-310 | reports the position of the first required field that is absent or falsy, with all earlier ones supplied, or that there is none |
| Writes.NoneMissing | app.py:306-310 | no field is reported missing exactly when all five required fields are present and truthy |
| Writes.CreateTicket | app.py:302-361 | a `null` body gives 500; every non-201 answer leaves the store unchanged; a 201 adds one ticket under the next id and changes nothing else |
| Writes.CreateTicketFrom | app.py:306-361 | the same, once the five fields have been read from the body |
| Writes.CheckPriority | app.py:312-317 | with all fields given, 400 exactly when the priority is a string whose trimmed lower-case form is not in `PRIORIDADES_VALIDAS`, and then with that error |
| Writes.CheckReferences | app.py:319-345 | once the body is valid, the insert happens exactly when the user and the sector both exist and the text fields bind; it stores the normalised priority, status `aberto` and the current time; otherwise nothing is written |
| Writes.UpdatedColumns | app.py:427-436 | the reported columns are exactly those the body names, `status` before `prioridade` |
| Writes.ApplyUpdate | app.py:430-435 | the stored status and priority are the values sent, because normalising an accepted value leaves it as it is; the other columns keep their values |
| Writes.UpdateTicket | app.py:406-467 | a missing ticket gives 404 whatever the body; a `null` or empty body gives 400; otherwise the answer is that of the validation and update below |
| Writes.UpdateFrom | app.py:415-459 | status is checked before priority, exactly as sent; a body naming neither gives 400; 200 exactly when what is sent is accepted and differs from what the ticket holds in at least one sent column; an accepted update that changes nothing answers 404, because `rowcount` counts changed rows; on 200, only that ticket changes |
| Writes.NormaliseFixesListed | app.py:11-12 | every value in `STATUS_VALIDOS` and `PRIORIDADES_VALIDAS` is unchanged by `strip().lower()` |
| Writes.DeleteTicket | app.py:469-494 | a missing id gives 404 and changes nothing; otherwise the store is exactly the old one without that ticket: every other row and every counter is untouched |
| Invariants.CreateSectorKeepsValid | app.py:187-193 | sector creation keeps the store invariant and adds its sector under an id not yet used |
| Invariants.CreateUserKeepsValid | app.py:239-261 | user creation keeps the invariant: the new user's sector exists and emails stay unique |
| Invariants.CreateTicketKeepsValid | app.py:319-345 | ticket creation keeps the invariant: the new ticket's user and sector exist and its status and priority are accepted ones |
| Invariants.UpdateTicketKeepsValid | app.py:415-450 | update keeps the invariant, since it only writes accepted values |
| Invariants.DeleteTicketKeepsValid | app.py:469-487 | delete keeps the invariant |
| WriteLaws.FirstMissingAgree | app.py:308-310 | bodies that agree on which required fields are supplied get the same answer from the field check |
| WriteLaws.CreateTicketFirstMissing | app.py:306-310 | the first absent or falsy required field, in the order titulo, descricao, prioridade, usuario_id, setor_id, is reported with 400 before anything else is checked |
| WriteLaws.CreateTicketPriorityCheck | app.py:312-317 | with all fields supplied, creation answers 400 exactly when the trimmed lower-case priority is not in `PRIORIDADES_VALIDAS` |
| WriteLaws.CreateTicketUserBeforeSector | app.py:319-323 | a missing user is reported whatever the sector; a missing sector is reported only once the user exists |
| WriteLaws.CreateTicketSuccess | app.py:338-353 | creation gives 201 exactly when every check passes; it then adds exactly one ticket under a fresh id with the normalised priority, status `aberto` and the current time, reports `status_inicial` `aberto`, and leaves users and sectors alone |
| WriteLaws.CreateTicketIgnoresOtherKeys | app.py:306-345 | body keys other than the five required fields have no effect on creation |
| WriteLaws.CreateTicketForcesOpen | app.py:342 | a `status` sent on creation changes nothing; the ticket is stored as `aberto` |
| WriteLaws.CreateTicketNormalisesPriority | app.py:312 | two non-empty priorities with the same trimmed lower-case form give identical outcomes (`""` is falsy and reported missing, while `" "` is refused as invalid) |
| WriteLaws.UpdateWritesSentColumns | app.py:427-450 | on 200, the ticket holds each value sent, exactly as sent, in the columns the body names; every other column, ticket and table is unchanged |
| WriteLaws.UpdateRepeated | app.py:406-467 | repeating an update leaves the store as the first call left it; a refused update gets the same answer again, and the repeat of an accepted one answers 404 |
| WriteLaws.UpdateRejectsPadded | app.py:421-425 | update refuses `" Alta "` with 400, because it validates the value as sent |
| WriteLaws.CreateAcceptsPadded | app.py:312-317 | `" Alta "` passes creation's priority check, so creation succeeds exactly when the rest of the request is valid, and then stores it as `alta` |
| WriteLaws.CreateThenDelete | app.py:469-487 | deleting the ticket just created restores the ticket table; only the id counter has advanced |
| WriteLaws.DeleteTwice | app.py:471-472 | a second delete of the same id answers 404 and changes nothing |
| WriteLaws.DuplicateEmailConflict | app.py:260-261 | a user with an already registered email is refused with 409 and nothing is written |
| WriteLaws.ValidatorWiderThanColumns | app.py:11-12 | `cancelado` and `critica` pass the validators but are not in the column ENUMs of app.py:75-76 |
| WriteLaws.CreateStoresCritica | app.py:312-345 | creation stores the priority `critica`, a value outside the column ENUM |
| Sorting.SortSet | app.py:213 | the rows of a query come out as a permutation, each exactly once, ordered by the ORDER BY relation |
| Sorting.SortedUnique | app.py:387-393 | when the order never ties two distinct rows, only one sorted arrangement exists |
| Queries.NameLeTotal | app.py:213 | any two names are comparable under `ORDER BY nome` |
| Queries.NameLeTransitive | app.py:213 | the name order is transitive |
| Queries.NameLeAntisymmetric | app.py:213 | two names that each sort no later than the other are equal |
| Queries.SectorOrderIsTotalPreorder | app.py:213 | the sector order is a total preorder |
| Queries.UserOrderIsTotalPreorder | app.py:288 | the user order is a total preorder |
| Queries.Rank | app.py:388-392 | the `CASE` gives a rank exactly to the three priorities of the column ENUM, `alta` 1, `media` 2, `baixa` 3; any other priority ranks NULL |
| Queries.TicketBefore | app.py:387-393 | `ORDER BY` rank ascending with NULL first, then `data_abertura` descending; its meaning is proved in `TicketOrderExplained` |
| Queries.TicketOrderExplained | app.py:387-393 | an unranked priority lists before every ranked one, `alta` before `media` before `baixa`, each strictly; within one priority, and between two unranked priorities, the newer ticket comes first |
| Queries.TicketOrderIsTotalPreorder | app.py:387-393 | rank, then opening time descending, is a total preorder |
| Queries.ListSectors | app.py:204-222 | every sector is listed exactly once, nothing else is listed, and names ascend |
| Queries.ListUsers | app.py:270-299 | every user is listed exactly once, joined with its sector's name, and names ascend |
| Queries.ListTickets | app.py:363-404 | every ticket is listed exactly once, joined with its user and sector; ranks ascend with NULL first; within a rank, the newest comes first |
| QueryLaws.ListingExample | app.py:387-393 | tickets baixa@1, alta@2, media@3, alta@4 can only be listed as alta@4, alta@2, media@3, baixa@1 |
| QueryLaws.UnrankedListedFirst | app.py:388-392 | a ticket whose priority has no rank is listed before every ranked ticket |
| QueryLaws.CriticalIsUnranked | app.py:12 | `critica` passes the validator but has no rank |
| QueryLaws.CreateSectorListed | app.py:187-213 | after a sector is created, the sector listing gains exactly that one new row |
| QueryLaws.UserListingEmailsUnique | app.py:62 | no two rows of the user listing share an email |
| QueryLaws.DeleteTicketListing | app.py:469-487 | deleting a ticket removes exactly its row from the ticket listing |

## Left out

- HTTP routing, `request.json` parsing and `jsonify`. The body is an already-parsed object, or
  `null`. Requests without a JSON body, or with a malformed one, are answered 400 or 415 by
  Flask before any endpoint runs. JSON bodies that are not objects (arrays, strings) and floating-point values are not
  modelled.
- Connection handling: `get_db_connection`, `init_db`, cursor and connection cleanup, and the
  500 answer for a missing connection. The health check and the home route are also left out.
  The `*_existe` helpers return False when the connection is missing, which mixes an outage with
  not-found. The model treats the database as always reachable.
- `cursor.lastrowid` and AUTO_INCREMENT are modelled as per-table counters. An insert that the
  database refuses still consumes an AUTO_INCREMENT value in MySQL. The model does not advance the
  counter in that case.
- Writes.DeleteTicket: the 404 answer that `rowcount == 0` gives after the DELETE is not
  modelled. The ticket was found just before, so it arises only when another client deletes it
  in between, and the model has no concurrent writers.
- How MySQL stores a value outside a column ENUM depends on `sql_mode`. The model stores the
  validated string, so `critica` and `cancelado` are kept as sent. The VARCHAR(100) length limit
  is also left out, since it too depends on `sql_mode`.
- The MySQL collation. Emails are compared exactly, and names are ordered by character code.
  The server's default collation ignores case and accents.
- Schema.ProbeRow: an identifier sent as a JSON string matches no row in the model. MySQL would
  convert the string to a number and could find a row.
- Text.Lower: the case mapping covers ASCII letters only. No string containing a character
  outside ASCII lower-cases to one of the accepted words `alta`, `media`, `baixa`, `critica`,
  `aberto`, `em atendimento`, `concluido` or `cancelado`. So which priorities are accepted is
  the same as with Python's full Unicode mapping; a priority that is refused either way may be
  lower-cased differently.
- `data_abertura` is `CURRENT_TIMESTAMP` in the source. The model takes it as the `now` argument
  of ticket creation.
- The interactive console client (`menu.py`) and the configuration loaded from the environment
  (`app_config.py`).

=== FILE: invariants.dfy ===
/**
 * Every write endpoint keeps the store invariant: ids stay below their
 * counters, every reference resolves, emails stay unique, and every
 * stored status and priority is one the validators accept.
 */
module Invariants {
  import opened Wrappers
  import opened Json
  import opened Text
  import opened Schema
  import opened Writes

  lemma CreateSectorKeepsValid(st: Store, body: Option<Body>)
    requires Valid(st)
    ensures var r := CreateSector(st, body);
      && Valid(r.store)
      && (r.code == 201 ==> st.nextSector !in st.sectors && |r.store.sectors| == |st.sectors| + 1)
  {
  }

  lemma CreateUserKeepsValid(st: Store, body: Option<Body>)
    requires Valid(st)
    ensures var r := CreateUser(st, body);
      && Valid(r.store)
      && (r.code == 201 ==> st.nextUser !in st.users && |r.store.users| == |st.users| + 1)
  {
    var r := CreateUser(st, body);
    if r.code == 201 {
      var u := r.store.users;
      forall a, b | a in u && b in u && a != b ensures u[a].email != u[b].email {
        if a != st.nextUser && b != st.nextUser {
          assert u[a] == st.users[a] && u[b] == st.users[b];
        }
      }
    }
  }

  lemma CreateTicketKeepsValid(st: Store, body: Option<Body>, now: int)
    requires Valid(st)
    ensures var r := CreateTicket(st, body, now);
      && Valid(r.store)
      && (r.code == 201 ==> st.nextTicket !in st.tickets && |r.store.tickets| == |st.tickets| + 1)
  {
    var r := CreateTicket(st, body, now);
    if r.code == 201 {
      var req := ReadTicketRequest(body.value);
      NoneMissing(req);
      var p := Normalise(req.prioridade.value.s);
      var usuario, setor := req.usuarioId.value, req.setorId.value;
      assert r == CheckReferences(st, usuario, setor, req.titulo.value, req.descricao.value, p, now);
      var t := r.store.tickets[st.nextTicket];
      AddTicketKeepsValid(st, t);
    }
  }

  /** Inserting a ticket whose references resolve and whose status and
      priority are accepted keeps the invariant. */
  lemma AddTicketKeepsValid(st: Store, t: Ticket)
    requires Valid(st)
    requires t.usuarioId in st.users && t.setorId in st.sectors
    requires t.status in StatusValid && t.prioridade in PriorityValid
    ensures st.nextTicket !in st.tickets
    ensures Valid(st.(tickets := st.tickets[st.nextTicket := t], nextTicket := st.nextTicket + 1))
  {
  }

  lemma UpdateTicketKeepsValid(st: Store, id: nat, body: Option<Body>)
    requires Valid(st)
    ensures Valid(UpdateTicket(st, id, body).store)
  {
    var r := UpdateTicket(st, id, body);
    if r.code == 200 {
      var req := ReadUpdateRequest(body.value);
      assert r == UpdateFrom(st, id, req);
      var t := ApplyUpdate(st.tickets[id], req);
      assert t.usuarioId == st.tickets[id].usuarioId && t.setorId == st.tickets[id].setorId;
      assert r.store == st.(tickets := st.tickets[id := t]);
      ReplaceTicketKeepsValid(st, id, t);
    }
  }

  /** Rewriting an existing ticket with resolving references and accepted
      status and priority keeps the invariant. */
  lemma ReplaceTicketKeepsValid(st: Store, id: int, t: Ticket)
    requires Valid(st) && id in st.tickets
    requires t.usuarioId in st.users && t.setorId in st.sectors
    requires t.status in StatusValid && t.prioridade in PriorityValid
    ensures Valid(st.(tickets := st.tickets[id := t]))
  {
  }

  lemma DeleteTicketKeepsValid(st: Store, id: nat)
    requires Valid(st)
    ensures Valid(DeleteTicket(st, id).store)
  {
  }
}

=== FILE: json.dfy ===
/**
 * Request bodies as the endpoints receive them: an already-parsed JSON
 * object (or nothing at all), and Python's truthiness on its values.
 */
module Json {
  import opened Wrappers

  /** A JSON value. Arrays and objects matter to the endpoints only through
      their truthiness, so they are kept as their number of members. */
  datatype Value =
    | Str(s: string)
    | Int(i: int)
    | Bool(b: bool)
    | Null
    | Compound(size: nat)

  /** A parsed JSON object. */
  type Body = map<string, Value>

  /** Python's `bool(v)`: empty strings, zero, False, None and empty
      containers are falsy. */
  predicate Truthy(v: Value) {
    match v
    case Str(s) => s != ""
    case Int(i) => i != 0
    case Bool(b) => b
    case Null => false
    case Compound(n) => n > 0
  }

  /** The five falsy JSON values, listed independently of `Truthy`. */
  const Falsy: set<Value> := {Str(""), Int(0), Bool(false), Null, Compound(0)}

  lemma TruthyIffNotFalsy(v: Value)
    ensures Truthy(v) <==> v !in Falsy
  {
  }

  /** `key in dados and dados[key]`: the key is present with a truthy value. */
  predicate Supplied(body: Body, key: string) {
    key in body && Truthy(body[key])
  }

  /** `not dados`, where `dados` is `request.json`: a `null` body, or `{}`.
      `None` is `request.json` evaluating to None, which only the JSON body
      `null` gives; a request without a JSON body is refused by Flask before
      the endpoint runs. */
  predicate NoBody(body: Option<Body>) {
    body.None? || body.value == map[]
  }

  /** Python `v in values` for a list of strings: only a string equal to a
      member is found. */
  predicate Listed(v: Value, values: seq<string>) {
    v.Str? && v.s in values
  }
}

=== FILE: queries.dfy ===
/**
 * The read endpoints GET /setor, GET /usuario and GET /chamados: the rows
 * each query joins together, and the order its ORDER BY clause imposes.
 */
module Queries {
  import opened Wrappers
  import opened Schema
  import opened Sorting

  // ---------------------------------------------------------------- rows

  /** A row of `SELECT * FROM setor`. */
  datatype SectorRow = SectorRow(idSetor: int, nome: string)

  /** A row of the user listing: the user joined with its sector's name. */
  datatype UserRow = UserRow(idUsuario: int, nome: string, email: string, setor: string, setorId: int)

  /** A row of the ticket listing: the ticket joined with the names of its
      user and sector. */
  datatype TicketRow = TicketRow(
    idChamado: int,
    titulo: string,
    descricao: string,
    prioridade: string,
    status: string,
    dataAbertura: int,
    usuario: string,
    setor: string,
    idUsuario: int,
    idSetor: int)

  function SectorRowOf(st: Store, id: int): SectorRow
    requires id in st.sectors
  {
    SectorRow(id, st.sectors[id].nome)
  }

  /** The sector table, one row per sector. */
  function SectorRows(st: Store): set<SectorRow> {
    set id | id in st.sectors :: SectorRowOf(st, id)
  }

  /** The user has a sector to join with. */
  predicate UserJoins(st: Store, id: int) {
    id in st.users && st.users[id].setorId in st.sectors
  }

  function UserRowOf(st: Store, id: int): UserRow
    requires UserJoins(st, id)
  {
    var u := st.users[id];
    UserRow(id, u.nome, u.email, st.sectors[u.setorId].nome, u.setorId)
  }

  /** The inner join of `usuario` with `setor`. */
  function UserRows(st: Store): set<UserRow> {
    set id | id in st.users && UserJoins(st, id) :: UserRowOf(st, id)
  }

  /** The ticket has a user and a sector to join with. */
  predicate TicketJoins(st: Store, id: int) {
    id in st.tickets && st.tickets[id].usuarioId in st.users && st.tickets[id].setorId in st.sectors
  }

  function TicketRowOf(st: Store, id: int): TicketRow
    requires TicketJoins(st, id)
  {
    var t := st.tickets[id];
    TicketRow(id, t.titulo, t.descricao, t.prioridade, t.status, t.dataAbertura,
              st.users[t.usuarioId].nome, st.sectors[t.setorId].nome, t.usuarioId, t.setorId)
  }

  /** The inner join of `chamados` with `usuario` and `setor`. */
  function TicketRows(st: Store): set<TicketRow> {
    set id | id in st.tickets && TicketJoins(st, id) :: TicketRowOf(st, id)
  }

  // --------------------------------------------------------------- order

  /** `ORDER BY nome`: strings compared character by character, a proper
      prefix first. */
  predicate NameLe(a: string, b: string)
    decreases |a|
  {
    a == [] || (b != [] && (a[0] < b[0] || (a[0] == b[0] && NameLe(a[1..], b[1..]))))
  }

  lemma {:induction false} NameLeTotal(a: string, b: string)
    ensures NameLe(a, b) || NameLe(b, a)
    decreases |a|
  {
    if a != [] && b != [] && a[0] == b[0] {
      NameLeTotal(a[1..], b[1..]);
    }
  }

  lemma {:induction false} NameLeTransitive(a: string, b: string, c: string)
    requires NameLe(a, b) && NameLe(b, c)
    ensures NameLe(a, c)
    decreases |a|
  {
    if a != [] && a[0] == b[0] && b[0] == c[0] {
      NameLeTransitive(a[1..], b[1..], c[1..]);
    }
  }

  /** Two names each `NameLe` the other are the same name, so rows tie
      only on equal names. */
  lemma {:induction false} NameLeAntisymmetric(a: string, b: string)
    requires NameLe(a, b) && NameLe(b, a)
    ensures a == b
    decreases |a|
  {
    if a != [] {
      NameLeAntisymmetric(a[1..], b[1..]);
      assert a == [a[0]] + a[1..] && b == [b[0]] + b[1..];
    }
  }

  predicate SectorBefore(x: SectorRow, y: SectorRow) {
    NameLe(x.nome, y.nome)
  }

  predicate UserBefore(x: UserRow, y: UserRow) {
    NameLe(x.nome, y.nome)
  }

  lemma SectorOrderIsTotalPreorder()
    ensures TotalPreorder(SectorBefore)
  {
    forall x: SectorRow, y: SectorRow ensures SectorBefore(x, y) || SectorBefore(y, x) {
      NameLeTotal(x.nome, y.nome);
    }
    forall x: SectorRow, y: SectorRow, z: SectorRow | SectorBefore(x, y) && SectorBefore(y, z)
      ensures SectorBefore(x, z)
    {
      NameLeTransitive(x.nome, y.nome, z.nome);
    }
  }

  lemma UserOrderIsTotalPreorder()
    ensures TotalPreorder(UserBefore)
  {
    forall x: UserRow, y: UserRow ensures UserBefore(x, y) || UserBefore(y, x) {
      NameLeTotal(x.nome, y.nome);
    }
    forall x: UserRow, y: UserRow, z: UserRow | UserBefore(x, y) && UserBefore(y, z)
      ensures UserBefore(x, z)
    {
      NameLeTransitive(x.nome, y.nome, z.nome);
    }
  }

  /** The `CASE prioridade WHEN 'alta' THEN 1 WHEN 'media' THEN 2 WHEN
      'baixa' THEN 3 END` of the ticket listing; with no ELSE, any other
      priority ranks as NULL. */
  function Rank(prioridade: string): (r: Option<nat>)
    ensures r.Some? <==> prioridade in PriorityColumn
    ensures r.Some? ==> 1 <= r.value <= 3 && PriorityColumn[3 - r.value] == prioridade
  {
    if prioridade == "alta" then Some(1)
    else if prioridade == "media" then Some(2)
    else if prioridade == "baixa" then Some(3)
    else None
  }

  /** Ascending order on ranks, where NULL comes first. */
  predicate RankBelow(a: Option<nat>, b: Option<nat>) {
    (a.None? && b.Some?) || (a.Some? && b.Some? && a.value < b.value)
  }

  /** `ORDER BY rank, data_abertura DESC`. */
  predicate TicketBefore(x: TicketRow, y: TicketRow) {
    var rx, ry := Rank(x.prioridade), Rank(y.prioridade);
    RankBelow(rx, ry) || (rx == ry && x.dataAbertura >= y.dataAbertura)
  }

  /** What the order means for two tickets: an unranked priority (such as
      `critica`) lists before every ranked one, `alta` before `media`
      before `baixa`, and within one priority the newest ticket first.
      Two different unranked priorities tie on rank, so they too are
      ordered newest first. */
  lemma TicketOrderExplained(x: TicketRow, y: TicketRow)
    ensures x.prioridade !in PriorityColumn && y.prioridade in PriorityColumn ==>
      TicketBefore(x, y) && !TicketBefore(y, x)
    ensures x.prioridade == "alta" && y.prioridade in ["media", "baixa"] ==>
      TicketBefore(x, y) && !TicketBefore(y, x)
    ensures x.prioridade == "media" && y.prioridade == "baixa" ==>
      TicketBefore(x, y) && !TicketBefore(y, x)
    ensures x.prioridade == y.prioridade ==>
      (TicketBefore(x, y) <==> x.dataAbertura >= y.dataAbertura)
    ensures x.prioridade !in PriorityColumn && y.prioridade !in PriorityColumn ==>
      (TicketBefore(x, y) <==> x.dataAbertura >= y.dataAbertura)
  {
  }

  lemma TicketOrderIsTotalPreorder()
    ensures TotalPreorder(TicketBefore)
  {
  }

  // ------------------------------------------------------------- listings

  /** GET /setor: every sector once, by name. */
  method ListSectors(st: Store) returns (rows: seq<SectorRow>)
    ensures forall i, j :: 0 <= i < j < |rows| ==> NameLe(rows[i].nome, rows[j].nome)
    ensures multiset(rows) == multiset(SectorRows(st))
    ensures forall i :: 0 <= i < |rows| ==>
      rows[i].idSetor in st.sectors && rows[i] == SectorRowOf(st, rows[i].idSetor)
    ensures forall id :: id in st.sectors ==> multiset(rows)[SectorRowOf(st, id)] == 1
  {
    SectorOrderIsTotalPreorder();
    rows := SortSet(SectorRows(st), SectorBefore);
    forall i | 0 <= i < |rows|
      ensures rows[i].idSetor in st.sectors && rows[i] == SectorRowOf(st, rows[i].idSetor)
    {
      assert rows[i] in multiset(rows);
    }
  }

  /** GET /usuario: every user joined with its sector, by user name. */
  method ListUsers(st: Store) returns (rows: seq<UserRow>)
    ensures forall i, j :: 0 <= i < j < |rows| ==> NameLe(rows[i].nome, rows[j].nome)
    ensures multiset(rows) == multiset(UserRows(st))
    ensures forall i :: 0 <= i < |rows| ==>
      UserJoins(st, rows[i].idUsuario) && rows[i] == UserRowOf(st, rows[i].idUsuario)
    ensures Valid(st) ==> forall id :: id in st.users ==> multiset(rows)[UserRowOf(st, id)] == 1
  {
    UserOrderIsTotalPreorder();
    rows := SortSet(UserRows(st), UserBefore);
    forall i | 0 <= i < |rows|
      ensures UserJoins(st, rows[i].idUsuario) && rows[i] == UserRowOf(st, rows[i].idUsuario)
    {
      assert rows[i] in multiset(rows);
    }
  }

  /** GET /chamados: every ticket joined with its user and sector, by
      priority rank (NULL first, then alta, media, baixa) and, within a
      rank, most recently opened first. */
  method ListTickets(st: Store) returns (rows: seq<TicketRow>)
    ensures forall i, j :: 0 <= i < j < |rows| ==>
      Rank(rows[i].prioridade) == Rank(rows[j].prioridade) ||
      RankBelow(Rank(rows[i].prioridade), Rank(rows[j].prioridade))
    ensures forall i, j :: 0 <= i < j < |rows| && Rank(rows[i].prioridade) == Rank(rows[j].prioridade) ==>
      rows[i].dataAbertura >= rows[j].dataAbertura
    ensures SortedBy(rows, TicketBefore)
    ensures multiset(rows) == multiset(TicketRows(st))
    ensures forall i :: 0 <= i < |rows| ==>
      TicketJoins(st, rows[i].idChamado) && rows[i] == TicketRowOf(st, rows[i].idChamado)
    ensures Valid(st) ==> forall id :: id in st.tickets ==> multiset(rows)[TicketRowOf(st, id)] == 1
  {
    TicketOrderIsTotalPreorder();
    rows := SortSet(TicketRows(st), TicketBefore);
    forall i | 0 <= i < |rows|
      ensures TicketJoins(st, rows[i].idChamado) && rows[i] == TicketRowOf(st, rows[i].idChamado)
    {
      assert rows[i] in multiset(rows);
    }
  }
}

=== FILE: query_laws.dfy ===
/**
 * What the listings show after a write, and what the ticket order decides.
 */
module QueryLaws {
  import opened Wrappers
  import opened Json
  import opened Schema
  import opened Sorting
  import opened Writes
  import opened Queries

  /** A ticket row that differs from the others only in id, priority and
      opening time. */
  function Sample(id: int, prioridade: string, at: int): TicketRow {
    TicketRow(id, "t", "d", prioridade, "aberto", at, "u", "s", 1, 1)
  }

  /** The listing order of the example below. */
  function ExampleOrder(): seq<TicketRow> {
    [Sample(4, "alta", 4), Sample(2, "alta", 2), Sample(3, "media", 3), Sample(1, "baixa", 1)]
  }

  lemma ExampleOrderSorted()
    ensures SortedBy(ExampleOrder(), TicketBefore)
  {
    var e := ExampleOrder();
    assert Rank("alta") == Some(1) && Rank("media") == Some(2) && Rank("baixa") == Some(3);
    assert TicketBefore(e[0], e[1]) && TicketBefore(e[0], e[2]) && TicketBefore(e[0], e[3]);
    assert TicketBefore(e[1], e[2]) && TicketBefore(e[1], e[3]) && TicketBefore(e[2], e[3]);
  }

  /** The example's tickets differ in opening time, so the order never ties
      two of them. */
  lemma ExampleOrderStrict()
    ensures NoTies(ExampleOrder(), TicketBefore)
  {
    forall x, y | x in ExampleOrder() && y in ExampleOrder() && TicketBefore(x, y) && TicketBefore(y, x)
      ensures x == y
    {
      assert x.dataAbertura == y.dataAbertura;
    }
  }

  /** Four tickets with priorities baixa, alta, media, alta opened at
      increasing times list as alta@4, alta@2, media@3, baixa@1: higher
      priority first, most recent first within a priority. No other order
      satisfies the listing's contract. */
  lemma ListingExample(rows: seq<TicketRow>)
    requires SortedBy(rows, TicketBefore)
    requires multiset(rows) == multiset{Sample(1, "baixa", 1), Sample(2, "alta", 2),
                                        Sample(3, "media", 3), Sample(4, "alta", 4)}
    ensures rows == ExampleOrder()
  {
    ExampleOrderSorted();
    ExampleOrderStrict();
    assert multiset(ExampleOrder()) == multiset(rows);
    SortedUnique(ExampleOrder(), rows, TicketBefore);
  }

  /** A priority outside alta/media/baixa ranks as NULL, and NULL comes
      first in ascending order: in any ticket listing such a ticket is
      listed before every ranked one. */
  lemma UnrankedListedFirst(rows: seq<TicketRow>, i: nat, j: nat)
    requires SortedBy(rows, TicketBefore)
    requires i < |rows| && j < |rows|
    requires Rank(rows[i].prioridade).Some? && Rank(rows[j].prioridade).None?
    ensures j < i
  {
  }

  /** `critica` passes the validator but has no rank. */
  lemma CriticalIsUnranked()
    ensures "critica" in PriorityValid && Rank("critica") == None
  {
  }

  /** A created sector appears in the sector listing: its row is new, and
      it is the only new row. */
  lemma CreateSectorListed(st: Store, body: Option<Body>)
    requires Valid(st)
    requires CreateSector(st, body).code == 201
    ensures var r := CreateSector(st, body);
      var row := SectorRow(st.nextSector, TextOf(body.value["nome"]).s);
      && row !in SectorRows(st)
      && SectorRows(r.store) == SectorRows(st) + {row}
  {
    var r := CreateSector(st, body);
    var row := SectorRow(st.nextSector, TextOf(body.value["nome"]).s);
    assert SectorRowOf(r.store, st.nextSector) == row;
    forall x | x in SectorRows(r.store) ensures x in SectorRows(st) + {row} {
      var id :| id in r.store.sectors && x == SectorRowOf(r.store, id);
      if id != st.nextSector {
        assert x == SectorRowOf(st, id);
      }
    }
    forall x | x in SectorRows(st) ensures x in SectorRows(r.store) {
      var id :| id in st.sectors && x == SectorRowOf(st, id);
      assert x == SectorRowOf(r.store, id);
    }
  }

  /** No two rows of the user listing share an email. */
  lemma UserListingEmailsUnique(st: Store)
    requires Valid(st)
    ensures forall a, b :: a in UserRows(st) && b in UserRows(st) && a.email == b.email ==> a == b
  {
    forall a, b | a in UserRows(st) && b in UserRows(st) && a.email == b.email ensures a == b {
      var ia :| ia in st.users && UserJoins(st, ia) && a == UserRowOf(st, ia);
      var ib :| ib in st.users && UserJoins(st, ib) && b == UserRowOf(st, ib);
      assert a.email == st.users[ia].email;
    }
  }

  /** Deleting a ticket removes exactly its row from the ticket listing. */
  lemma DeleteTicketListing(st: Store, id: nat)
    requires TicketJoins(st, id)
    ensures TicketRows(DeleteTicket(st, id).store) == TicketRows(st) - {TicketRowOf(st, id)}
  {
    var st' := st.(tickets := st.tickets - {id});
    assert DeleteTicket(st, id).store == st';
    var gone := TicketRowOf(st, id);
    forall x | x in TicketRows(st') ensures x in TicketRows(st) && x != gone {
      var k :| k in st'.tickets && TicketJoins(st', k) && x == TicketRowOf(st', k);
      assert x == TicketRowOf(st, k);
      assert x.idChamado == k && gone.idChamado == id;
    }
    forall x | x in TicketRows(st) && x != gone ensures x in TicketRows(st') {
      var k :| k in st.tickets && TicketJoins(st, k) && x == TicketRowOf(st, k);
      assert k != id;
      assert x == TicketRowOf(st', k);
    }
  }
}

=== FILE: schema.dfy ===
/**
 * The three tables of the service desk (setor, usuario, chamados) as an
 * immutable store, the validation constants, the integrity the database
 * keeps, and how the driver turns a JSON value into a query parameter.
 */
module Schema {
  import opened Json
  import opened Text

  /** `STATUS_VALIDOS`: the statuses the update endpoint accepts. */
  const StatusValid: seq<string> := ["aberto", "em atendimento", "concluido", "cancelado"]

  /** `PRIORIDADES_VALIDAS`: the priorities creation and update accept. */
  const PriorityValid: seq<string> := ["critica", "alta", "media", "baixa"]

  /** The values the `status` column's ENUM declares. */
  const StatusColumn: seq<string> := ["aberto", "em atendimento", "concluido"]

  /** The values the `prioridade` column's ENUM declares. */
  const PriorityColumn: seq<string> := ["baixa", "media", "alta"]

  /** The status every new ticket is given. */
  const InitialStatus: string := "aberto"

  /** A row of `setor`. */
  datatype Sector = Sector(nome: string)

  /** A row of `usuario`; `setorId` references `setor`. */
  datatype User = User(nome: string, email: string, setorId: int)

  /** A row of `chamados`; `dataAbertura` is the creation time in seconds,
      `usuarioId` and `setorId` reference `usuario` and `setor`. */
  datatype Ticket = Ticket(
    titulo: string,
    descricao: string,
    prioridade: string,
    status: string,
    dataAbertura: int,
    usuarioId: int,
    setorId: int)

  /** The database: each table keyed by its AUTO_INCREMENT id, with the id
      the next insert into that table receives. */
  datatype Store = Store(
    sectors: map<int, Sector>,
    users: map<int, User>,
    tickets: map<int, Ticket>,
    nextSector: int,
    nextUser: int,
    nextTicket: int)

  /** Freshly created tables: empty, AUTO_INCREMENT starting at 1. */
  const EmptyStore: Store := Store(map[], map[], map[], 1, 1, 1)

  /** No two users share an email (the UNIQUE constraint on `email`). */
  ghost predicate UniqueEmails(users: map<int, User>) {
    forall a, b :: a in users && b in users && a != b ==> users[a].email != users[b].email
  }

  /** What holds of every store the endpoints produce: ids were handed out
      by the counters, every reference resolves, no email repeats, and
      every ticket's status and priority passed the validator. */
  ghost predicate Valid(st: Store) {
    && 1 <= st.nextSector && 1 <= st.nextUser && 1 <= st.nextTicket
    && (forall id :: id in st.sectors ==> 1 <= id < st.nextSector)
    && (forall id :: id in st.users ==> 1 <= id < st.nextUser && st.users[id].setorId in st.sectors)
    && (forall id :: id in st.tickets ==>
          && 1 <= id < st.nextTicket
          && st.tickets[id].usuarioId in st.users
          && st.tickets[id].setorId in st.sectors
          && st.tickets[id].status in StatusValid
          && st.tickets[id].prioridade in PriorityValid)
    && UniqueEmails(st.users)
  }

  lemma EmptyStoreValid()
    ensures Valid(EmptyStore)
  {
  }

  /** A JSON value bound as the parameter of `WHERE id = %s`: integers (and
      booleans, which the driver sends as 1 and 0) name a key; null and
      strings match no row; arrays and objects cannot be bound at all. */
  datatype KeyParam = Key(k: int) | NoRow | Unbindable

  function KeyOf(v: Value): KeyParam {
    match v
    case Int(i) => Key(i)
    case Bool(b) => Key(if b then 1 else 0)
    case Str(_) => NoRow
    case Null => NoRow
    case Compound(_) => Unbindable
  }

  /** The outcome of `setor_existe`, `usuario_existe` or `chamado_existe`
      on a table with keys `keys`: the row is found, it is not, or binding
      the parameter raises. */
  datatype Probe = Found(k: int) | Absent | Raises

  function ProbeRow(v: Value, keys: set<int>): (r: Probe)
    ensures r.Found? <==> KeyOf(v).Key? && KeyOf(v).k in keys
    ensures r.Found? ==> r.k == KeyOf(v).k
    ensures r.Raises? <==> v.Compound?
  {
    match KeyOf(v)
    case Key(k) => if k in keys then Found(k) else Absent
    case NoRow => Absent
    case Unbindable => Raises
  }

  /** A JSON value bound as a text column value: strings as they are,
      integers and booleans in the decimal form the driver sends, null as
      SQL NULL; arrays and objects cannot be converted. */
  datatype TextParam = Text(s: string) | SqlNull | Unconvertible

  function TextOf(v: Value): TextParam {
    match v
    case Str(s) => Text(s)
    case Int(i) => Text(Decimal(i))
    case Bool(b) => Text(if b then "1" else "0")
    case Null => SqlNull
    case Compound(_) => Unconvertible
  }

}

=== FILE: sorting.dfy ===
/**
 * Ordering of listings. The database sorts the rows of a query by its
 * ORDER BY clause; rows the clause ranks equal may come out in any order.
 * The model states the clause as a total preorder `le` and sorts by
 * insertion.
 */
module Sorting {

  /** Every earlier element is `le` every later one. */
  predicate SortedBy<T>(xs: seq<T>, le: (T, T) -> bool) {
    forall i, j :: 0 <= i < j < |xs| ==> le(xs[i], xs[j])
  }

  /** `le` compares every pair and is transitive. */
  ghost predicate TotalPreorder<T(!new)>(le: (T, T) -> bool) {
    && (forall a, b :: le(a, b) || le(b, a))
    && (forall a, b, c :: le(a, b) && le(b, c) ==> le(a, c))
  }

  /** Inserts `x` before the first element it is `le` to. */
  function Insert<T>(x: T, xs: seq<T>, le: (T, T) -> bool): (r: seq<T>)
    ensures multiset(r) == multiset(xs) + multiset{x}
    decreases |xs|
  {
    if xs == [] || le(x, xs[0]) then [x] + xs
    else
      assert xs == [xs[0]] + xs[1..];
      [xs[0]] + Insert(x, xs[1..], le)
  }

  lemma {:induction false} InsertSorted<T(!new)>(x: T, xs: seq<T>, le: (T, T) -> bool)
    requires TotalPreorder(le)
    requires SortedBy(xs, le)
    ensures SortedBy(Insert(x, xs, le), le)
    decreases |xs|
  {
    if xs == [] || le(x, xs[0]) {
      var r := Insert(x, xs, le);
      forall i, j | 0 <= i < j < |r| ensures le(r[i], r[j]) {
        if i == 0 && j > 1 {
          assert le(x, xs[0]) && le(xs[0], xs[j - 1]);
        }
      }
    } else {
      var rest := Insert(x, xs[1..], le);
      InsertSorted(x, xs[1..], le);
      assert le(xs[0], x);
      LeInsert(xs[0], x, xs[1..], le);
      var r := [xs[0]] + rest;
      forall i, j | 0 <= i < j < |r| ensures le(r[i], r[j]) {
        if i == 0 {
          assert r[j] == rest[j - 1];
        } else {
          assert r[i] == rest[i - 1] && r[j] == rest[j - 1];
        }
      }
    }
  }

  /** What is `le` to `x` and to every element of `xs` is `le` to every
      element after inserting `x` into `xs`. */
  lemma LeInsert<T>(y: T, x: T, xs: seq<T>, le: (T, T) -> bool)
    requires le(y, x) && forall k :: 0 <= k < |xs| ==> le(y, xs[k])
    ensures forall k :: 0 <= k < |Insert(x, xs, le)| ==> le(y, Insert(x, xs, le)[k])
  {
    var r := Insert(x, xs, le);
    forall k | 0 <= k < |r| ensures le(y, r[k]) {
      assert r[k] in multiset(r);
      if r[k] != x {
        assert r[k] in multiset(xs);
        var m :| 0 <= m < |xs| && xs[m] == r[k];
      }
    }
  }

  /** Lists the elements of `s` in `le` order: an insertion sort that takes
      the elements in whatever order the set yields them. */
  method SortSet<T(==, !new)>(s: set<T>, le: (T, T) -> bool) returns (r: seq<T>)
    requires TotalPreorder(le)
    ensures SortedBy(r, le)
    ensures multiset(r) == multiset(s)
  {
    r := [];
    var rest := s;
    while rest != {}
      invariant rest <= s
      invariant SortedBy(r, le)
      invariant multiset(r) == multiset(s - rest)
      decreases rest
    {
      var x :| x in rest;
      InsertSorted(x, r, le);
      r := Insert(x, r, le);
      assert s - (rest - {x}) == (s - rest) + {x};
      rest := rest - {x};
    }
    assert s - rest == s;
  }

  /** Dropping the head of a sequence drops one copy of it from its multiset. */
  lemma MultisetTail<T>(a: seq<T>)
    requires a != []
    ensures multiset(a[1..]) == multiset(a) - multiset{a[0]}
  {
    assert a == [a[0]] + a[1..];
  }

  /** The head of a sorted sequence is `le` every other element of it. */
  lemma HeadIsLeast<T>(b: seq<T>, x: T, le: (T, T) -> bool)
    requires SortedBy(b, le) && x in b && x != b[0]
    ensures le(b[0], x)
  {
    var i :| 0 <= i < |b| && b[i] == x;
  }

  /** `le` never ranks two distinct elements of `xs` equal. */
  ghost predicate NoTies<T>(xs: seq<T>, le: (T, T) -> bool) {
    forall x, y :: x in xs && y in xs && le(x, y) && le(y, x) ==> x == y
  }

  /** Two sorted permutations of the same elements without ties start
      with the same element. */
  lemma SameHead<T>(a: seq<T>, b: seq<T>, le: (T, T) -> bool)
    requires NoTies(a, le) && SortedBy(a, le) && SortedBy(b, le)
    requires multiset(a) == multiset(b) && a != []
    ensures b != [] && a[0] == b[0]
  {
    assert a[0] in multiset(b);
    assert b[0] in multiset(a);
    if a[0] != b[0] {
      HeadIsLeast(b, a[0], le);
      HeadIsLeast(a, b[0], le);
      assert false;
    }
  }

  /** The tail of a sorted sequence without ties is sorted and has no ties. */
  lemma TailKeeps<T>(a: seq<T>, le: (T, T) -> bool)
    requires NoTies(a, le) && SortedBy(a, le) && a != []
    ensures NoTies(a[1..], le) && SortedBy(a[1..], le)
  {
    forall x, y | x in a[1..] && y in a[1..] && le(x, y) && le(y, x) ensures x == y {
      assert x in a && y in a;
    }
  }

  /** Two sorted permutations of the same elements are equal when `le`
      never ties two distinct elements: the order is then fully decided. */
  lemma {:induction false} SortedUnique<T>(a: seq<T>, b: seq<T>, le: (T, T) -> bool)
    requires NoTies(a, le)
    requires SortedBy(a, le) && SortedBy(b, le)
    requires multiset(a) == multiset(b)
    ensures a == b
    decreases |a|
  {
    if a == [] {
      assert |multiset(b)| == 0;
    } else {
      SameHead(a, b, le);
      MultisetTail(a);
      MultisetTail(b);
      TailKeeps(a, le);
      assert SortedBy(b[1..], le);
      SortedUnique(a[1..], b[1..], le);
      assert a == [a[0]] + a[1..] && b == [b[0]] + b[1..];
    }
  }
}

=== FILE: text.dfy ===
/**
 * The string operations the endpoints apply to enumerated fields:
 * Python's `str.strip()` and `str.lower()`, and the decimal rendering the
 * database driver uses when an integer is written to a text column.
 */
module Text {

  /** Python's `str.isspace()` for one character: the ASCII whitespace and
      separator controls plus the Unicode space separators. */
  predicate IsSpace(c: char) {
    var n := c as int;
    n == 0x20 || 0x09 <= n <= 0x0D || 0x1C <= n <= 0x1F || n == 0x85 || n == 0xA0
    || n == 0x1680 || 0x2000 <= n <= 0x200A || n == 0x2028 || n == 0x2029
    || n == 0x202F || n == 0x205F || n == 0x3000
  }

  /** Drops the leading whitespace: the result is the longest suffix of `s`
      that does not start with a space. */
  function TrimStart(s: string): (r: string)
    ensures |r| <= |s| && r == s[|s| - |r|..]
    ensures forall i :: 0 <= i < |s| - |r| ==> IsSpace(s[i])
    ensures r == [] || !IsSpace(r[0])
    decreases |s|
  {
    if |s| > 0 && IsSpace(s[0]) then TrimStart(s[1..]) else s
  }

  /** Drops the trailing whitespace: the result is the longest prefix of `s`
      that does not end with a space. */
  function TrimEnd(s: string): (r: string)
    ensures |r| <= |s| && r == s[..|r|]
    ensures forall i :: |r| <= i < |s| ==> IsSpace(s[i])
    ensures r == [] || !IsSpace(r[|r| - 1])
    decreases |s|
  {
    if |s| > 0 && IsSpace(s[|s| - 1]) then TrimEnd(s[..|s| - 1]) else s
  }

  /** Neither end of `s` is whitespace. */
  predicate Trimmed(s: string) {
    s == [] || (!IsSpace(s[0]) && !IsSpace(s[|s| - 1]))
  }

  /** The first position at or after `i` that does not hold whitespace,
      or `|s|` when there is none. */
  function SkipSpaces(s: string, i: nat): (n: nat)
    requires i <= |s|
    ensures i <= n <= |s|
    ensures forall k :: i <= k < n ==> IsSpace(s[k])
    ensures n == |s| || !IsSpace(s[n])
    decreases |s| - i
  {
    if i < |s| && IsSpace(s[i]) then SkipSpaces(s, i + 1) else i
  }

  /** The end of `s[lo..hi]` once the whitespace it ends with is dropped. */
  function SkipSpacesBack(s: string, lo: nat, hi: nat): (n: nat)
    requires lo <= hi <= |s|
    ensures lo <= n <= hi
    ensures forall k :: n <= k < hi ==> IsSpace(s[k])
    ensures n == lo || !IsSpace(s[n - 1])
    decreases hi - lo
  {
    if lo < hi && IsSpace(s[hi - 1]) then SkipSpacesBack(s, lo, hi - 1) else hi
  }

  /** The number of whitespace characters `s` starts with. */
  function LeadingSpaces(s: string): nat {
    SkipSpaces(s, 0)
  }

  /** Python's `s.strip()`, scanning inwards from both ends as CPython
      does: the slice of `s` that starts at its first non-whitespace
      character and neither starts nor ends with whitespace, with only
      whitespace before and after it. */
  function Strip(s: string): (r: string)
    ensures Trimmed(r)
    ensures LeadingSpaces(s) + |r| <= |s|
    ensures r == s[LeadingSpaces(s)..LeadingSpaces(s) + |r|]
    ensures forall i :: 0 <= i < LeadingSpaces(s) ==> IsSpace(s[i])
    ensures forall i :: LeadingSpaces(s) + |r| <= i < |s| ==> IsSpace(s[i])
  {
    var a := SkipSpaces(s, 0);
    s[a..SkipSpacesBack(s, a, |s|)]
  }

  /** `strip()` is the two one-sided cuts one after the other. */
  lemma StripTrimsBothEnds(s: string)
    ensures Strip(s) == TrimEnd(TrimStart(s))
  {
    var t := TrimStart(s);
    var a := |s| - |t|;
    FirstNonSpace(s, a, SkipSpaces(s, 0));
    TrimEndOfSuffix(s, a);
  }

  /** Cutting the trailing whitespace of `s[a..]` ends where the backward
      scan from the end of `s` stops. */
  lemma TrimEndOfSuffix(s: string, a: nat)
    requires a <= |s|
    ensures TrimEnd(s[a..]) == s[a..SkipSpacesBack(s, a, |s|)]
  {
    var t := s[a..];
    PrefixOfSuffix(s, a, t, TrimEnd(t), SkipSpacesBack(s, a, |s|));
  }

  /** A prefix `r` of the suffix `s[a..]`, followed there by whitespace only
      and not ending with whitespace, is `s[a..b]` for the one `b` with the
      same two properties. */
  lemma PrefixOfSuffix(s: string, a: nat, t: string, r: string, b: nat)
    requires a + |t| == |s| && t == s[a..]
    requires |r| <= |t| && r == t[..|r|] && (forall i :: |r| <= i < |t| ==> IsSpace(t[i]))
    requires r == [] || !IsSpace(r[|r| - 1])
    requires a <= b <= |s| && (forall k :: b <= k < |s| ==> IsSpace(s[k])) && (b == a || !IsSpace(s[b - 1]))
    ensures r == s[a..b]
  {
    forall k | a + |r| <= k < |s| ensures IsSpace(s[k]) {
      assert s[k] == t[k - a];
    }
    assert r == [] || s[a + |r| - 1] == r[|r| - 1];
    LastNonSpace(s, a, a + |r|, b);
    forall k | 0 <= k < |r| ensures r[k] == s[a..b][k] {
      assert r[k] == t[k];
    }
  }

  /** Two positions that both end a whitespace run starting at 0 and hold
      a non-space (or the end) are the same. */
  lemma FirstNonSpace(s: string, a: nat, b: nat)
    requires a <= |s| && (forall k :: 0 <= k < a ==> IsSpace(s[k])) && (a == |s| || !IsSpace(s[a]))
    requires b <= |s| && (forall k :: 0 <= k < b ==> IsSpace(s[k])) && (b == |s| || !IsSpace(s[b]))
    ensures a == b
  {
  }

  /** Two ends after `lo` that are followed only by whitespace and are
      preceded by a non-space (or sit at `lo`) are the same. */
  lemma LastNonSpace(s: string, lo: nat, a: nat, b: nat)
    requires lo <= a <= |s| && (forall k :: a <= k < |s| ==> IsSpace(s[k])) && (a == lo || !IsSpace(s[a - 1]))
    requires lo <= b <= |s| && (forall k :: b <= k < |s| ==> IsSpace(s[k])) && (b == lo || !IsSpace(s[b - 1]))
    ensures a == b
  {
  }

  /** Python's `c.lower()` on the ASCII letters; every other character is
      kept. No string holding a character outside ASCII lower-cases to one
      of the accepted words, so which values are accepted is unaffected. */
  function LowerChar(c: char): char {
    if 'A' <= c <= 'Z' then (c as int + 32) as char else c
  }

  predicate IsUpper(c: char) {
    'A' <= c <= 'Z'
  }

  /** Python's `s.lower()`, character by character. */
  function Lower(s: string): (r: string)
    ensures |r| == |s|
    ensures forall i :: 0 <= i < |r| ==> !IsUpper(r[i])
    ensures forall i :: 0 <= i < |s| && !IsUpper(s[i]) ==> r[i] == s[i]
    ensures forall i :: 0 <= i < |s| && IsUpper(s[i]) ==> r[i] as int == s[i] as int + 32
  {
    seq(|s|, i requires 0 <= i < |s| => LowerChar(s[i]))
  }

  /** `s.strip().lower()`: the normalisation ticket creation applies to the
      priority, and ticket update applies to already-validated values. */
  function Normalise(s: string): (r: string)
    ensures |r| <= |s|
    ensures forall i :: 0 <= i < |r| ==> !IsUpper(r[i])
  {
    Lower(Strip(s))
  }

  /** A string normalisation leaves alone: trimmed and with no upper-case
      letter. */
  predicate Clean(s: string) {
    Trimmed(s) && forall i :: 0 <= i < |s| ==> !IsUpper(s[i])
  }

  /** Normalisation changes nothing in a clean string ... */
  lemma {:induction false} NormaliseFixesClean(s: string)
    requires Clean(s)
    ensures Normalise(s) == s
  {
    assert s == [] || !IsSpace(s[0]);
    assert s == [] || !IsSpace(s[|s| - 1]);
    assert Strip(s) == s;
    assert Lower(s) == s;
  }

  /** ... and always produces a clean string ... */
  lemma {:induction false} NormaliseIsClean(s: string)
    ensures Clean(Normalise(s))
  {
    var t := Strip(s);
    var r := Lower(t);
    if r != [] {
      assert r[0] == LowerChar(t[0]);
      assert r[|r| - 1] == LowerChar(t[|t| - 1]);
      LowerCharKeepsSpace(t[0]);
      LowerCharKeepsSpace(t[|t| - 1]);
    }
  }

  /** Lower-casing never turns a character into whitespace or back. */
  lemma LowerCharKeepsSpace(c: char)
    ensures IsSpace(LowerChar(c)) <==> IsSpace(c)
  {
  }

  /** ... so applying it twice is the same as applying it once. */
  lemma NormaliseIdempotent(s: string)
    ensures Normalise(Normalise(s)) == Normalise(s)
  {
    NormaliseIsClean(s);
    NormaliseFixesClean(Normalise(s));
  }

  /** A priority sent with surrounding spaces and a capital letter
      normalises to the plain lower-case word. */
  lemma NormaliseExample()
    ensures Normalise(" Alta ") == "alta"
  {
    StripExample();
    LowerExample();
  }

  lemma LowerExample()
    ensures Lower("Alta") == "alta"
  {
  }

  lemma StripExample()
    ensures Strip(" Alta ") == "Alta"
  {
    var padded := " Alta ";
    assert SkipSpaces(padded, 1) == 1;
    assert SkipSpaces(padded, 0) == 1;
    assert SkipSpacesBack(padded, 1, 5) == 5;
    assert SkipSpacesBack(padded, 1, 6) == 5;
    assert padded[1..5] == "Alta";
  }

  function DigitChar(d: nat): char
    requires d < 10
  {
    "0123456789"[d]
  }

  /** The decimal digits of `n`, most significant first. */
  function Digits(n: nat): string
    decreases n
  {
    if n < 10 then [DigitChar(n)] else Digits(n / 10) + [DigitChar(n % 10)]
  }

  /** Python's `str(i)` for an integer. */
  function Decimal(i: int): string {
    if i < 0 then "-" + Digits(-i) else Digits(i)
  }
}

=== FILE: wrappers.dfy ===
/** A minimal optional-value datatype shared by the other modules. */
module Wrappers {

  datatype Option<+T> = None | Some(value: T)
}

=== FILE: write_laws.dfy ===
/**
 * Properties of the write endpoints that relate a request to another
 * request, to a second call, or to the order in which checks happen.
 */
module WriteLaws {
  import opened Wrappers
  import opened Json
  import opened Text
  import opened Schema
  import opened Writes

  /** Two field lists that agree on which entries are given report the
      same first missing field. */
  lemma {:induction false} FirstMissingAgree(vs1: seq<Option<Value>>, vs2: seq<Option<Value>>)
    requires |vs1| == |vs2|
    requires forall i :: 0 <= i < |vs1| ==> (Given(vs1[i]) <==> Given(vs2[i]))
    ensures FirstMissing(vs1) == FirstMissing(vs2)
    decreases |vs1|
  {
    if vs1 != [] && Given(vs1[0]) {
      FirstMissingAgree(vs1[1..], vs2[1..]);
    }
  }

  /** Replacing a given field by another given value does not move the
      first missing field. */
  lemma FirstMissingReplace(vs: seq<Option<Value>>, i: nat, v: Option<Value>)
    requires i < |vs| && Given(vs[i]) && Given(v)
    ensures FirstMissing(vs[i := v]) == FirstMissing(vs)
  {
    FirstMissingAgree(vs[i := v], vs);
  }

  /** Reading the request picks up, field by field, what the body holds
      under each name of `TicketFields`. */
  lemma RequiredAreFields(b: Body)
    ensures |Required(ReadTicketRequest(b))| == |TicketFields|
    ensures forall i :: 0 <= i < |TicketFields| ==>
      (Given(Required(ReadTicketRequest(b))[i]) <==> Supplied(b, TicketFields[i]))
  {
    var vs := Required(ReadTicketRequest(b));
    forall i | 0 <= i < |TicketFields| ensures Given(vs[i]) <==> Supplied(b, TicketFields[i]) {
      assert vs[i] == Field(b, TicketFields[i]);
    }
  }

  // ------------------------------------------------------ ticket creation

  /** The first required field that is absent or falsy is the one reported,
      before the priority or any reference is looked at. */
  lemma CreateTicketFirstMissing(st: Store, b: Body, now: int, i: nat)
    requires i < |TicketFields| && !Supplied(b, TicketFields[i])
    requires forall j :: 0 <= j < i ==> Supplied(b, TicketFields[j])
    ensures CreateTicket(st, Some(b), now) == Fail(MissingField(TicketFields[i]), st)
  {
    RequiredAreFields(b);
    var vs := Required(ReadTicketRequest(b));
    assert !Given(vs[i]);
    assert forall j :: 0 <= j < i ==> Given(vs[j]);
  }

  /** With every field supplied and the priority a string, the request is
      refused as an invalid priority exactly when its trimmed lower-case
      form is not one of `PRIORIDADES_VALIDAS`. */
  lemma CreateTicketPriorityCheck(st: Store, b: Body, now: int)
    requires forall i :: 0 <= i < |TicketFields| ==> Supplied(b, TicketFields[i])
    requires "prioridade" in b && b["prioridade"].Str?
    ensures var r := CreateTicket(st, Some(b), now);
      && (Normalise(b["prioridade"].s) !in PriorityValid <==> r.code == 400)
      && (r.code == 400 ==> r == Fail(InvalidPriority(PriorityValid), st))
  {
    RequiredAreFields(b);
    var req := ReadTicketRequest(b);
    var vs := Required(req);
    assert Given(vs[0]) && Given(vs[1]) && Given(vs[2]) && Given(vs[3]) && Given(vs[4]);
    NoneMissing(req);
    assert req.prioridade == Some(b["prioridade"]);
  }

  /** The user is looked up before the sector: a missing user is reported
      whatever the sector, a missing sector only once the user exists. */
  lemma CreateTicketUserBeforeSector(st: Store, b: Body, now: int)
    requires AllGiven(ReadTicketRequest(b)) && PriorityAccepted(ReadTicketRequest(b))
    ensures ProbeRow(b["usuario_id"], st.users.Keys).Absent? ==>
      CreateTicket(st, Some(b), now) == Fail(UserNotFound, st)
    ensures ProbeRow(b["usuario_id"], st.users.Keys).Found? &&
            ProbeRow(b["setor_id"], st.sectors.Keys).Absent? ==>
              CreateTicket(st, Some(b), now) == Fail(SectorNotFound, st)
  {
    var req := ReadTicketRequest(b);
    NoneMissing(req);
    assert req.usuarioId == Some(b["usuario_id"]) && req.setorId == Some(b["setor_id"]);
  }

  /** The conditions under which a ticket is created. */
  predicate CreationSucceeds(st: Store, req: TicketRequest) {
    && AllGiven(req) && PriorityAccepted(req)
    && ProbeRow(req.usuarioId.value, st.users.Keys).Found?
    && ProbeRow(req.setorId.value, st.sectors.Keys).Found?
    && TextOf(req.titulo.value).Text?
    && TextOf(req.descricao.value).Text?
  }

  /** The ticket a successful creation stores: the normalised priority,
      status `aberto`, opened at `now`. */
  function NewTicket(st: Store, req: TicketRequest, now: int): Ticket
    requires CreationSucceeds(st, req)
  {
    Ticket(TextOf(req.titulo.value).s, TextOf(req.descricao.value).s,
           Normalise(req.prioridade.value.s), InitialStatus, now,
           ProbeRow(req.usuarioId.value, st.users.Keys).k,
           ProbeRow(req.setorId.value, st.sectors.Keys).k)
  }

  /** Creation answers 201 exactly when every check passes; it then adds
      exactly one ticket under a fresh id, with status `aberto`, reports
      `status_inicial` as `aberto`, and changes nothing else. */
  lemma CreateTicketSuccess(st: Store, b: Body, now: int)
    requires Valid(st)
    ensures var r := CreateTicket(st, Some(b), now);
      && (r.code == 201 <==> CreationSucceeds(st, ReadTicketRequest(b)))
      && (r.code == 201 ==>
            && st.nextTicket !in st.tickets
            && r.payload == TicketCreated(st.nextTicket, "aberto")
            && r.store.tickets == st.tickets[st.nextTicket := NewTicket(st, ReadTicketRequest(b), now)]
            && r.store.tickets[st.nextTicket].status == "aberto"
            && r.store.tickets[st.nextTicket].prioridade in PriorityValid
            && |r.store.tickets| == |st.tickets| + 1
            && r.store.users == st.users && r.store.sectors == st.sectors)
  {
    var req := ReadTicketRequest(b);
    NoneMissing(req);
    if AllGiven(req) && PriorityAccepted(req) {
      var p := Normalise(req.prioridade.value.s);
      assert CreateTicket(st, Some(b), now) ==
        CheckReferences(st, req.usuarioId.value, req.setorId.value,
                        req.titulo.value, req.descricao.value, p, now);
    }
  }

  /** Keys other than the five required fields, `status` among them, have
      no effect at all on ticket creation. */
  lemma CreateTicketIgnoresOtherKeys(st: Store, b: Body, now: int, k: string, v: Value)
    requires k !in TicketFields
    ensures CreateTicket(st, Some(b[k := v]), now) == CreateTicket(st, Some(b), now)
  {
    assert ReadTicketRequest(b[k := v]) == ReadTicketRequest(b);
  }

  /** A `status` sent on creation is ignored: the ticket is stored as
      `aberto` just as if no status had been sent. */
  lemma CreateTicketForcesOpen(st: Store, b: Body, now: int, status: Value)
    requires Valid(st)
    ensures var r := CreateTicket(st, Some(b["status" := status]), now);
      r == CreateTicket(st, Some(b - {"status"}), now)
      && (r.code == 201 ==>
            st.nextTicket in r.store.tickets && r.store.tickets[st.nextTicket].status == InitialStatus)
  {
    var b0 := b - {"status"};
    assert b["status" := status] == b0["status" := status];
    CreateTicketIgnoresOtherKeys(st, b0, now, "status", status);
    CreateTicketSuccess(st, b0, now);
  }

  /** Two non-empty priorities with the same trimmed lower-case form are
      indistinguishable to ticket creation. */
  lemma CreateTicketNormalisesPriority(st: Store, b: Body, now: int, p: string, q: string)
    requires p != "" && q != "" && Normalise(p) == Normalise(q)
    ensures CreateTicket(st, Some(b["prioridade" := Str(p)]), now)
         == CreateTicket(st, Some(b["prioridade" := Str(q)]), now)
  {
    ReadSetPriority(b, Str(p));
    ReadSetPriority(b, Str(q));
    CreateFromNormalisesPriority(st, ReadTicketRequest(b), now, p, q);
  }

  /** Setting `prioridade` in the body sets that field of the request and
      no other. */
  lemma ReadSetPriority(b: Body, v: Value)
    ensures ReadTicketRequest(b["prioridade" := v]) == ReadTicketRequest(b).(prioridade := Some(v))
  {
  }

  lemma CreateFromNormalisesPriority(st: Store, req: TicketRequest, now: int, p: string, q: string)
    requires p != "" && q != "" && Normalise(p) == Normalise(q)
    ensures CreateTicketFrom(st, req.(prioridade := Some(Str(p))), now)
         == CreateTicketFrom(st, req.(prioridade := Some(Str(q))), now)
  {
    var rp, rq := req.(prioridade := Some(Str(p))), req.(prioridade := Some(Str(q)));
    SamePriorityPresence(req, Some(Str(p)), Some(Str(q)));
    if FirstMissing(Required(rp)).None? {
      NoneMissing(rp);
      NoneMissing(rq);
      CheckPriorityNormalises(st, req, now, p, q);
    }
  }

  /** Two given priorities leave the first missing field where it is. */
  lemma SamePriorityPresence(req: TicketRequest, v: Option<Value>, w: Option<Value>)
    requires Given(v) && Given(w)
    ensures FirstMissing(Required(req.(prioridade := Some(v.value))))
         == FirstMissing(Required(req.(prioridade := Some(w.value))))
  {
    var vs := Required(req.(prioridade := v));
    assert Required(req.(prioridade := w)) == vs[2 := w];
    FirstMissingReplace(vs, 2, w);
  }

  lemma CheckPriorityNormalises(st: Store, req: TicketRequest, now: int, p: string, q: string)
    requires AllGiven(req.(prioridade := Some(Str(p)))) && AllGiven(req.(prioridade := Some(Str(q))))
    requires Normalise(p) == Normalise(q)
    ensures CheckPriority(st, req.(prioridade := Some(Str(p))), now)
         == CheckPriority(st, req.(prioridade := Some(Str(q))), now)
  {
  }

  // ------------------------------------------------------- ticket update

  /** The ticket with each of `status` and `prioridade` that the body
      names set to the string sent, as sent. */
  function WithSentColumns(t: Ticket, b: Body): Ticket {
    var status := if "status" in b && b["status"].Str? then b["status"].s else t.status;
    var prioridade := if "prioridade" in b && b["prioridade"].Str? then b["prioridade"].s else t.prioridade;
    t.(status := status, prioridade := prioridade)
  }

  /** On 200, the ticket holds each value sent, exactly as sent, in the
      columns the body names; nothing else in the store changes. */
  lemma UpdateWritesSentColumns(st: Store, id: nat, b: Body)
    ensures var r := UpdateTicket(st, id, Some(b));
      r.code == 200 ==>
        && id in st.tickets
        && r.store == st.(tickets := st.tickets[id := WithSentColumns(st.tickets[id], b)])
  {
    var r := UpdateTicket(st, id, Some(b));
    if r.code == 200 {
      var req := ReadUpdateRequest(b);
      assert req.status == Field(b, "status") && req.prioridade == Field(b, "prioridade");
      assert r == UpdateFrom(st, id, req);
      assert ApplyUpdate(st.tickets[id], req) == WithSentColumns(st.tickets[id], b);
    }
  }

  /** Repeating an update leaves the store as the first call left it. A
      refused update is refused again with the same answer; an accepted one
      changes nothing the second time, so `rowcount` is 0 and the repeat is
      answered 404. */
  lemma UpdateRepeated(st: Store, id: nat, body: Option<Body>)
    ensures var r := UpdateTicket(st, id, body);
      var again := UpdateTicket(r.store, id, body);
      && again.store == r.store
      && (r.code == 200 ==> again == Fail(TicketNotFound, r.store))
      && (r.code != 200 ==> again == r)
  {
    var r := UpdateTicket(st, id, body);
    if r.code == 200 {
      var req := ReadUpdateRequest(body.value);
      var t' := ApplyUpdate(st.tickets[id], req);
      assert r.store.tickets[id] == t';
      assert ApplyUpdate(t', req) == t';
      assert UpdateTicket(r.store, id, body) == UpdateFrom(r.store, id, req);
    }
  }

  /** Update validates the priority exactly as sent: a padded, capitalised
      priority is refused ... */
  lemma UpdateRejectsPadded(st: Store, id: nat)
    requires id in st.tickets
    ensures UpdateTicket(st, id, Some(map["prioridade" := Str(" Alta ")]))
         == Fail(InvalidPriority(PriorityValid), st)
  {
    var m := map["prioridade" := Str(" Alta ")];
    assert "prioridade" in m && "status" !in m;
    assert ReadUpdateRequest(m) == UpdateRequest(None, Some(Str(" Alta ")));
    assert !Listed(Str(" Alta "), PriorityValid);
  }

  /** ... although creation accepts it and stores it as `alta`. */
  lemma CreateAcceptsPadded(st: Store, b: Body, now: int)
    requires Valid(st) && "prioridade" in b && b["prioridade"] == Str(" Alta ")
    ensures PriorityAccepted(ReadTicketRequest(b))
    ensures var r := CreateTicket(st, Some(b), now);
      r.code == 201 <==> CreationSucceeds(st, ReadTicketRequest(b))
    ensures var r := CreateTicket(st, Some(b), now);
      r.code == 201 ==>
        st.nextTicket in r.store.tickets && r.store.tickets[st.nextTicket].prioridade == "alta"
  {
    assert ReadTicketRequest(b).prioridade == Some(Str(" Alta "));
    NormaliseExample();
    CreateTicketSuccess(st, b, now);
  }

  // ------------------------------------------------------- ticket delete

  /** Deleting a ticket just created restores the ticket table; only the
      id counter has moved on. */
  lemma CreateThenDelete(st: Store, b: Body, now: int)
    requires Valid(st)
    requires CreateTicket(st, Some(b), now).code == 201
    ensures var r := CreateTicket(st, Some(b), now);
      DeleteTicket(r.store, st.nextTicket).store == st.(nextTicket := st.nextTicket + 1)
  {
    var r := CreateTicket(st, Some(b), now);
    var t := r.store.tickets[st.nextTicket];
    assert st.nextTicket !in st.tickets;
    assert st.tickets[st.nextTicket := t] - {st.nextTicket} == st.tickets;
  }

  /** A second delete of the same id finds nothing and changes nothing. */
  lemma DeleteTwice(st: Store, id: nat)
    requires id in st.tickets
    ensures var r := DeleteTicket(st, id);
      DeleteTicket(r.store, id) == Fail(TicketNotFound, r.store)
  {
  }

  // ---------------------------------------------------------- user create

  /** A user whose email is already registered is refused with 409 and no
      row is written, whatever the other fields hold. */
  lemma DuplicateEmailConflict(st: Store, b: Body)
    requires UserFieldsPresent(b)
    requires ProbeRow(b["setor_id"], st.sectors.Keys).Found?
    requires TextOf(b["nome"]).Text? && TextOf(b["email"]).Text?
    requires EmailInUse(st, TextOf(b["email"]).s)
    ensures CreateUser(st, Some(b)) == Fail(EmailTaken, st)
  {
  }

  // ------------------------------------------------- validator vs columns

  /** The validator lists admit a status and a priority the columns' ENUMs
      do not declare ... */
  lemma ValidatorWiderThanColumns()
    ensures "cancelado" in StatusValid && "cancelado" !in StatusColumn
    ensures "critica" in PriorityValid && "critica" !in PriorityColumn
  {
  }

  /** ... and creation stores such a priority. */
  lemma CreateStoresCritica(st: Store, b: Body, now: int)
    requires Valid(st) && CreationSucceeds(st, ReadTicketRequest(b)) && b["prioridade"] == Str("critica")
    ensures var r := CreateTicket(st, Some(b), now);
      && r.code == 201 && st.nextTicket in r.store.tickets
      && r.store.tickets[st.nextTicket].prioridade == "critica"
      && r.store.tickets[st.nextTicket].prioridade !in PriorityColumn
  {
    ValidatorWiderThanColumns();
    NormaliseFixesListed("critica", PriorityValid);
    assert ReadTicketRequest(b).prioridade == Some(Str("critica"));
    CreateTicketSuccess(st, b, now);
  }
}

=== FILE: writes.dfy ===
/**
 * The write endpoints: POST /setor, POST /usuario, POST /chamados,
 * PUT /chamados/<id> and DELETE /chamados/<id>. Each takes the store and
 * the parsed request and yields the HTTP status, the response payload and
 * the store after the request.
 */
module Writes {
  import opened Wrappers
  import opened Json
  import opened Text
  import opened Schema

  /** Why a request was refused; each kind is one error response. */
  datatype Failure =
    | MissingField(field: string)         // "Campo '<field>' é obrigatório"
    | MissingUserFields                   // "Campos obrigatórios: nome, email, setor_id"
    | NoData                              // "Nenhum dado enviado"
    | InvalidStatus(allowed: seq<string>)
    | InvalidPriority(allowed: seq<string>)
    | NoUpdatableField                    // "Nenhum campo válido para atualizar"
    | UserNotFound
    | SectorNotFound
    | TicketNotFound
    | EmailTaken                          // the insert broke an integrity constraint
    | DatabaseError                       // a driver error the endpoint catches
    | Unhandled                           // an exception escaping the endpoint

  /** The HTTP status each failure is answered with. */
  function Code(f: Failure): int {
    match f
    case MissingField(_) => 400
    case MissingUserFields => 400
    case NoData => 400
    case InvalidStatus(_) => 400
    case InvalidPriority(_) => 400
    case NoUpdatableField => 400
    case UserNotFound => 404
    case SectorNotFound => 404
    case TicketNotFound => 404
    case EmailTaken => 409
    case DatabaseError => 500
    case Unhandled => 500
  }

  datatype Payload =
    | SectorCreated(sectorId: int)
    | UserCreated(userId: int)
    | TicketCreated(ticketId: int, initialStatus: string)
    | TicketUpdated(fields: seq<string>)
    | TicketDeleted
    | Failed(failure: Failure)

  /** The response status, its payload, and the store afterwards. */
  datatype Outcome = Outcome(code: int, payload: Payload, store: Store)

  function Fail(f: Failure, st: Store): Outcome {
    Outcome(Code(f), Failed(f), st)
  }

  // ---------------------------------------------------------------- setor

  /** POST /setor: only the presence of `nome` is checked. */
  function CreateSector(st: Store, body: Option<Body>): (r: Outcome)
    ensures r.code in {201, 400, 500}
    ensures r.code != 201 ==> r.store == st
    ensures r.code == 400 <==> NoBody(body) || "nome" !in body.value
    ensures r.code == 201 <==> !NoBody(body) && "nome" in body.value && TextOf(body.value["nome"]).Text?
    ensures r.code == 201 ==>
      && r.payload == SectorCreated(st.nextSector)
      && r.store == st.(sectors := st.sectors[st.nextSector := Sector(TextOf(body.value["nome"]).s)],
                        nextSector := st.nextSector + 1)
  {
    if NoBody(body) || "nome" !in body.value then
      Fail(MissingField("nome"), st)
    else
      match TextOf(body.value["nome"])
      case Text(nome) =>
        var id := st.nextSector;
        Outcome(201, SectorCreated(id),
                st.(sectors := st.sectors[id := Sector(nome)], nextSector := id + 1))
      case _ =>
        // NULL into a NOT NULL column, or a value the driver cannot convert.
        Fail(DatabaseError, st)
  }

  // -------------------------------------------------------------- usuario

  /** `email` is already registered to some user. */
  predicate EmailInUse(st: Store, email: string) {
    exists id | id in st.users :: st.users[id].email == email
  }

  predicate UserFieldsPresent(b: Body) {
    "nome" in b && "email" in b && "setor_id" in b
  }

  /** POST /usuario: the three fields must be present, the sector must
      exist, and the insert must not break the UNIQUE email or NOT NULL
      constraints. */
  function CreateUser(st: Store, body: Option<Body>): (r: Outcome)
    ensures r.code in {201, 400, 404, 409, 500}
    ensures r.code != 201 ==> r.store == st
    ensures r.code == 400 <==> NoBody(body) || !UserFieldsPresent(body.value)
    ensures r.code == 404 <==>
      !NoBody(body) && UserFieldsPresent(body.value)
      && ProbeRow(body.value["setor_id"], st.sectors.Keys).Absent?
    ensures r.code == 409 <==>
      !NoBody(body) && UserFieldsPresent(body.value)
      && ProbeRow(body.value["setor_id"], st.sectors.Keys).Found?
      && Conflicts(st, TextOf(body.value["nome"]), TextOf(body.value["email"]))
    ensures r.code == 201 <==>
      !NoBody(body) && UserFieldsPresent(body.value)
      && ProbeRow(body.value["setor_id"], st.sectors.Keys).Found?
      && TextOf(body.value["nome"]).Text? && TextOf(body.value["email"]).Text?
      && !EmailInUse(st, TextOf(body.value["email"]).s)
    ensures r.code == 201 ==>
      var b := body.value;
      && r.payload == UserCreated(st.nextUser)
      && r.store == st.(users := st.users[st.nextUser := User(TextOf(b["nome"]).s, TextOf(b["email"]).s,
                                                               ProbeRow(b["setor_id"], st.sectors.Keys).k)],
                        nextUser := st.nextUser + 1)
  {
    if NoBody(body) || !UserFieldsPresent(body.value) then
      Fail(MissingUserFields, st)
    else
      var b := body.value;
      match ProbeRow(b["setor_id"], st.sectors.Keys)
      case Raises => Fail(Unhandled, st)
      case Absent => Fail(SectorNotFound, st)
      case Found(s) => InsertUser(st, TextOf(b["nome"]), TextOf(b["email"]), s)
  }

  /** Both values bind, and the row would break the NOT NULL constraint on
      `nome` or `email` or the UNIQUE constraint on `email`: the driver
      raises `IntegrityError`. */
  predicate Conflicts(st: Store, nome: TextParam, email: TextParam) {
    && !nome.Unconvertible? && !email.Unconvertible?
    && (nome.SqlNull? || email.SqlNull? || EmailInUse(st, email.s))
  }

  /** The INSERT into `usuario` once the sector is known to exist. */
  function InsertUser(st: Store, nome: TextParam, email: TextParam, s: int): (r: Outcome)
    ensures r.code in {201, 409, 500}
    ensures r.code != 201 ==> r.store == st
    ensures r.code == 201 <==> nome.Text? && email.Text? && !EmailInUse(st, email.s)
    ensures r.code == 409 <==> Conflicts(st, nome, email)
    ensures r.code == 201 ==>
      && r.payload == UserCreated(st.nextUser)
      && r.store == st.(users := st.users[st.nextUser := User(nome.s, email.s, s)],
                        nextUser := st.nextUser + 1)
  {
    if nome.Unconvertible? || email.Unconvertible? then
      Fail(DatabaseError, st)
    else if nome.SqlNull? || email.SqlNull? || EmailInUse(st, email.s) then
      Fail(EmailTaken, st)
    else
      var id := st.nextUser;
      Outcome(201, UserCreated(id),
              st.(users := st.users[id := User(nome.s, email.s, s)], nextUser := id + 1))
  }

  // ------------------------------------------------------------- chamados

  /** `dados.get(key)`: the value under `key`, if the body has one. */
  function Field(b: Body, key: string): Option<Value> {
    if key in b then Some(b[key]) else None
  }

  /** `key in dados and dados[key]`, on a field already read. */
  predicate Given(v: Option<Value>) {
    v.Some? && Truthy(v.value)
  }

  /** The fields ticket creation reads from its body. */
  datatype TicketRequest = TicketRequest(
    titulo: Option<Value>,
    descricao: Option<Value>,
    prioridade: Option<Value>,
    usuarioId: Option<Value>,
    setorId: Option<Value>)

  /** The names of the required fields, in the order creation checks them. */
  const TicketFields: seq<string> := ["titulo", "descricao", "prioridade", "usuario_id", "setor_id"]

  function ReadTicketRequest(b: Body): TicketRequest {
    TicketRequest(Field(b, "titulo"), Field(b, "descricao"), Field(b, "prioridade"),
                  Field(b, "usuario_id"), Field(b, "setor_id"))
  }

  /** The required fields' values, in the order of `TicketFields`. */
  function Required(req: TicketRequest): seq<Option<Value>> {
    [req.titulo, req.descricao, req.prioridade, req.usuarioId, req.setorId]
  }

  /** The position of the first of `vs` that is absent or falsy. */
  function FirstMissing(vs: seq<Option<Value>>): (r: Option<nat>)
    ensures r.None? ==> forall i :: 0 <= i < |vs| ==> Given(vs[i])
    ensures r.Some? ==>
      && r.value < |vs| && !Given(vs[r.value])
      && forall j :: 0 <= j < r.value ==> Given(vs[j])
    decreases |vs|
  {
    if vs == [] then None
    else if !Given(vs[0]) then Some(0)
    else
      match FirstMissing(vs[1..])
      case None => None
      case Some(k) => Some(k + 1)
  }

  /** Every field ticket creation requires is present and truthy. */
  predicate AllGiven(req: TicketRequest) {
    Given(req.titulo) && Given(req.descricao) && Given(req.prioridade)
    && Given(req.usuarioId) && Given(req.setorId)
  }

  /** No required field is missing exactly when all five are given. */
  lemma NoneMissing(req: TicketRequest)
    ensures FirstMissing(Required(req)).None? <==> AllGiven(req)
  {
    var vs := Required(req);
    var r := FirstMissing(vs);
    if r.None? {
      assert Given(vs[0]) && Given(vs[1]) && Given(vs[2]) && Given(vs[3]) && Given(vs[4]);
    } else {
      assert !Given(vs[r.value]);
    }
  }

  /** The priority was sent as a string whose trimmed lower-case form is
      one of `PRIORIDADES_VALIDAS`. */
  predicate PriorityAccepted(req: TicketRequest) {
    req.prioridade.Some? && req.prioridade.value.Str?
    && Normalise(req.prioridade.value.s) in PriorityValid
  }

  /** POST /chamados. The required fields are checked in order, then the
      priority is trimmed, lower-cased and checked, then the user and then
      the sector must exist; the ticket is stored with status `aberto`
      whatever the body says and the current time as its opening time. */
  function CreateTicket(st: Store, body: Option<Body>, now: int): (r: Outcome)
    ensures r.code in {201, 400, 404, 500}
    ensures r.code != 201 ==> r.store == st
    ensures r.code == 201 ==>
      && st.nextTicket in r.store.tickets
      && r.store == st.(tickets := st.tickets[st.nextTicket := r.store.tickets[st.nextTicket]],
                        nextTicket := st.nextTicket + 1)
    ensures body.None? ==> r == Fail(Unhandled, st)
  {
    if body.None? then
      // `campo not in dados` with a `null` body raises.
      Fail(Unhandled, st)
    else
      CreateTicketFrom(st, ReadTicketRequest(body.value), now)
  }

  function CreateTicketFrom(st: Store, req: TicketRequest, now: int): (r: Outcome)
    ensures r.code in {201, 400, 404, 500}
    ensures r.code != 201 ==> r.store == st
    ensures r.code == 201 ==>
      && st.nextTicket in r.store.tickets
      && r.store == st.(tickets := st.tickets[st.nextTicket := r.store.tickets[st.nextTicket]],
                        nextTicket := st.nextTicket + 1)
  {
    match FirstMissing(Required(req))
    case Some(i) => Fail(MissingField(TicketFields[i]), st)
    case None =>
      NoneMissing(req);
      CheckPriority(st, req, now)
  }

  /** The priority check of POST /chamados, once every field is given, and
      what follows it. */
  function CheckPriority(st: Store, req: TicketRequest, now: int): (r: Outcome)
    requires AllGiven(req)
    ensures r.code in {201, 400, 404, 500}
    ensures r.code != 201 ==> r.store == st
    ensures r.code == 201 ==>
      && st.nextTicket in r.store.tickets
      && r.store == st.(tickets := st.tickets[st.nextTicket := r.store.tickets[st.nextTicket]],
                        nextTicket := st.nextTicket + 1)
    ensures r.code == 400 <==> req.prioridade.value.Str? && Normalise(req.prioridade.value.s) !in PriorityValid
    ensures r.code == 400 ==> r == Fail(InvalidPriority(PriorityValid), st)
  {
    var p := req.prioridade.value;
    if !p.Str? then
      // `.strip()` on a non-string raises.
      Fail(Unhandled, st)
    else if Normalise(p.s) !in PriorityValid then
      Fail(InvalidPriority(PriorityValid), st)
    else
      CheckReferences(st, req.usuarioId.value, req.setorId.value,
                      req.titulo.value, req.descricao.value, Normalise(p.s), now)
  }

  /** The user check and then the sector check of POST /chamados, once the
      body has passed validation, followed by the insert. */
  function CheckReferences(st: Store, usuario: Value, setor: Value, titulo: Value,
                           descricao: Value, prioridade: string, now: int): (r: Outcome)
    requires prioridade in PriorityValid
    ensures r.code in {201, 404, 500}
    ensures r.code != 201 ==> r.store == st
    ensures r.code == 201 <==>
      && ProbeRow(usuario, st.users.Keys).Found? && ProbeRow(setor, st.sectors.Keys).Found?
      && TextOf(titulo).Text? && TextOf(descricao).Text?
    ensures r.code == 201 ==>
      && r.payload == TicketCreated(st.nextTicket, InitialStatus)
      && r.store == st.(
           tickets := st.tickets[st.nextTicket := Ticket(
             TextOf(titulo).s, TextOf(descricao).s, prioridade, InitialStatus, now,
             ProbeRow(usuario, st.users.Keys).k, ProbeRow(setor, st.sectors.Keys).k)],
           nextTicket := st.nextTicket + 1)
  {
    match ProbeRow(usuario, st.users.Keys)
    case Raises => Fail(Unhandled, st)
    case Absent => Fail(UserNotFound, st)
    case Found(u) =>
      match ProbeRow(setor, st.sectors.Keys)
      case Raises => Fail(Unhandled, st)
      case Absent => Fail(SectorNotFound, st)
      case Found(s) =>
        if TextOf(titulo).Text? && TextOf(descricao).Text? then
          var id := st.nextTicket;
          var t := Ticket(TextOf(titulo).s, TextOf(descricao).s, prioridade, InitialStatus, now, u, s);
          Outcome(201, TicketCreated(id, InitialStatus),
                  st.(tickets := st.tickets[id := t], nextTicket := id + 1))
        else
          // A value the driver cannot convert.
          Fail(DatabaseError, st)
  }

  /** The fields ticket update reads from its body. */
  datatype UpdateRequest = UpdateRequest(status: Option<Value>, prioridade: Option<Value>)

  function ReadUpdateRequest(b: Body): UpdateRequest {
    UpdateRequest(Field(b, "status"), Field(b, "prioridade"))
  }

  /** The field is absent, or present with one of `values` exactly as sent. */
  predicate AbsentOrListed(v: Option<Value>, values: seq<string>) {
    v.None? || Listed(v.value, values)
  }

  /** The columns an update names, in the order the endpoint lists them:
      `status` first, then `prioridade`. */
  function UpdatedColumns(req: UpdateRequest): (cols: seq<string>)
    ensures "status" in cols <==> req.status.Some?
    ensures "prioridade" in cols <==> req.prioridade.Some?
    ensures cols in [[], ["status"], ["prioridade"], ["status", "prioridade"]]
  {
    if req.status.Some? && req.prioridade.Some? then ["status", "prioridade"]
    else if req.status.Some? then ["status"]
    else if req.prioridade.Some? then ["prioridade"]
    else []
  }

  /** The ticket after the UPDATE: the sent columns hold the values sent,
      every other column keeps its value. */
  function ApplyUpdate(t: Ticket, req: UpdateRequest): (t': Ticket)
    requires AbsentOrListed(req.status, StatusValid) && AbsentOrListed(req.prioridade, PriorityValid)
    ensures t'.status == if req.status.Some? then req.status.value.s else t.status
    ensures t'.prioridade == if req.prioridade.Some? then req.prioridade.value.s else t.prioridade
    ensures t' == t.(status := t'.status, prioridade := t'.prioridade)
  {
    var status :=
      if req.status.Some? then
        NormaliseFixesListed(req.status.value.s, StatusValid);
        Normalise(req.status.value.s)
      else t.status;
    var prioridade :=
      if req.prioridade.Some? then
        NormaliseFixesListed(req.prioridade.value.s, PriorityValid);
        Normalise(req.prioridade.value.s)
      else t.prioridade;
    t.(status := status, prioridade := prioridade)
  }

  /** Every accepted status and priority is already trimmed and lower-case,
      so the normalisation the update applies after validating leaves it
      unchanged. */
  lemma NormaliseFixesListed(s: string, values: seq<string>)
    requires values == StatusValid || values == PriorityValid
    requires s in values
    ensures Normalise(s) == s
  {
    NormaliseFixesClean(s);
  }

  /** PUT /chamados/<id>. The ticket must exist before the body is looked
      at; `status` and `prioridade` are checked exactly as sent, status
      first; only the columns the body names are written. */
  function UpdateTicket(st: Store, id: nat, body: Option<Body>): (r: Outcome)
    ensures r.code in {200, 400, 404}
    ensures r.code != 200 ==> r.store == st
    ensures id !in st.tickets ==> r == Fail(TicketNotFound, st)
    ensures id in st.tickets && NoBody(body) ==> r == Fail(NoData, st)
    ensures id in st.tickets && !NoBody(body) ==> r == UpdateFrom(st, id, ReadUpdateRequest(body.value))
  {
    if id !in st.tickets then
      Fail(TicketNotFound, st)
    else if NoBody(body) then
      Fail(NoData, st)
    else
      UpdateFrom(st, id, ReadUpdateRequest(body.value))
  }

  /** The validation and UPDATE of PUT /chamados/<id> once the ticket is
      known to exist and the body is not empty. The connection is opened
      without the FOUND_ROWS flag, so `rowcount` counts the rows the UPDATE
      changed: an update that writes the values the ticket already holds
      reports no row and is answered 404. */
  function UpdateFrom(st: Store, id: nat, req: UpdateRequest): (r: Outcome)
    requires id in st.tickets
    ensures r.code in {200, 400, 404}
    ensures r.code != 200 ==> r.store == st
    ensures r.code == 404 ==> r == Fail(TicketNotFound, st)
    ensures !AbsentOrListed(req.status, StatusValid) ==> r == Fail(InvalidStatus(StatusValid), st)
    ensures AbsentOrListed(req.status, StatusValid) && !AbsentOrListed(req.prioridade, PriorityValid) ==>
      r == Fail(InvalidPriority(PriorityValid), st)
    ensures req.status.None? && req.prioridade.None? ==> r == Fail(NoUpdatableField, st)
    ensures r.code == 200 <==>
      && AbsentOrListed(req.status, StatusValid) && AbsentOrListed(req.prioridade, PriorityValid)
      && ((req.status.Some? && req.status.value.s != st.tickets[id].status)
          || (req.prioridade.Some? && req.prioridade.value.s != st.tickets[id].prioridade))
    ensures (&& AbsentOrListed(req.status, StatusValid) && AbsentOrListed(req.prioridade, PriorityValid)
             && (req.status.Some? || req.prioridade.Some?)
             && ApplyUpdate(st.tickets[id], req) == st.tickets[id]) ==>
      r == Fail(TicketNotFound, st)
    ensures r.code == 200 ==>
      && r.payload == TicketUpdated(UpdatedColumns(req))
      && r.store == st.(tickets := st.tickets[id := ApplyUpdate(st.tickets[id], req)])
  {
    if !AbsentOrListed(req.status, StatusValid) then
      Fail(InvalidStatus(StatusValid), st)
    else if !AbsentOrListed(req.prioridade, PriorityValid) then
      Fail(InvalidPriority(PriorityValid), st)
    else
      var cols := UpdatedColumns(req);
      if cols == [] then
        Fail(NoUpdatableField, st)
      else
        var t := ApplyUpdate(st.tickets[id], req);
        if t == st.tickets[id] then
          // `cursor.rowcount == 0`: no row changed.
          Fail(TicketNotFound, st)
        else
          Outcome(200, TicketUpdated(cols), st.(tickets := st.tickets[id := t]))
  }

  /** DELETE /chamados/<id>. */
  function DeleteTicket(st: Store, id: nat): (r: Outcome)
    ensures r.code in {200, 404}
    ensures id !in st.tickets ==> r == Fail(TicketNotFound, st)
    ensures id in st.tickets ==>
      && r.code == 200 && r.payload == TicketDeleted
      && id !in r.store.tickets && |r.store.tickets| == |st.tickets| - 1
      && (forall k :: k in r.store.tickets <==> k in st.tickets && k != id)
      && (forall k :: k in r.store.tickets ==> r.store.tickets[k] == st.tickets[k])
      && r.store == st.(tickets := st.tickets - {id})
  {
    if id !in st.tickets then Fail(TicketNotFound, st)
    else Outcome(200, TicketDeleted, st.(tickets := st.tickets - {id}))
  }
}
